=== FILE: README.md ===
# AIPoweredApp server core in Dafny

A model of the sequential decision logic of the AIPoweredApp Express server.
It has two halves: the park chatbot and the product-review summarizer.

- `llm_client.dfy` (`LlmClient`): `llmClient.generateText`. Option defaults,
  the request every attempt sends, and the three-attempt retry loop. The loop
  retries only a 429 rejection that carries retry info. The provider is a
  function from attempt index to outcome. Sleeps are recorded as a list of
  milliseconds.
- `conversation_repository.dfy` (`ConversationRepository`): the in-memory
  conversation `Map`. Its keys are kept in insertion order next to the
  entries, because `getAll()` returns that order. The operations are create,
  find, save, add message, list, delete and count, all under the invariant
  `Valid`.
- `chat_service.dfy` (`ChatService`): one chat turn. It finds or creates the
  conversation, appends the user's message, builds the model request (history
  or first prompt), appends the reply and reports the count. The chat model is
  a function that can answer or throw.
- `review_repository.dfy` (`ReviewRepository`): the review query (filter,
  newest first, optional `take`) and the summary upsert with its 7-day expiry.
- `review_service.dfy` (`ReviewService`): summarize-with-cache. A hit returns
  the stored record. A miss summarizes at most 10 reviews joined by blank
  lines, falls back to `'No summary available'` and stores the result.
- `chat_controller.dfy` (`ChatController`): the HTTP decisions. Prompt
  validation, the 404 / 429 / 500 error mapping, the conversation list
  projection, and the 400 / 404 answers of get and delete.
- `wrappers.dfy` and `js_builtins.dfy`: `Option`/`Result`, and the JavaScript
  built-ins the code calls (`Error`, `includes`, `substring(0, n)`, `join`).

Fresh ids (`uuidv4`), the clock (`new Date()`, `dayjs()`), the Gemini SDK,
`llmClient.summarizeReviews` and Zod's UUID check are parameters.

Two facts about the code shape the model:

- `generateText` does not reject an empty prompt.
- No read path checks `expiryDate`, so a cache hit is served however old it
  is.

The `throw lastErr` after the retry loop (`client.ts:55`) cannot be reached.
The third attempt is never retried, so its error is thrown inside the loop.
`GenerateText` proves this: its loop ends only by returning.

## Model

| member | source | states |
|---|---|---|
| LlmClient.RequestFor | packages/server/llm/client.ts:17-33 | The request keeps the caller's prompt. Model, temperature and token limit are the caller's values when given, else `'gemini-2.5-flash-lite'`, `0.2` and `300`. |
| LlmClient.RetryDelayMs | packages/server/llm/client.ts:41-45 | The sleep is the provider's `retryDelaySeconds` times 1000 ms, or 1000 ms when the delay is absent. |
| LlmClient.Retryable | packages/server/llm/client.ts:40 | A failure is retried only when its code is 429, retry info is present and the attempt index is below 2. Every other failure is not retried. |
| LlmClient.RunFrom | packages/server/llm/client.ts:26-55 | Reference retry policy. It makes at least one attempt and at most 3. Every attempt before the last was a retryable 429 and was followed by its own delay. The last attempt's text is returned or its error thrown, and a thrown error was not retryable. |
| LlmClient.GenerateText | packages/server/llm/client.ts:17-56 | The loop sends the same request on every attempt, 1 to 3 times. It sleeps exactly once per retried attempt, so success on attempt k means k sleeps. It returns the first text or throws the most recent error, and agrees with `RunFrom`. |
| LlmClient.SucceedsAfterTwoRetries | packages/server/llm/client.ts:26-46 | Two rate-limited failures, then an answer: the answer is returned after 3 attempts and exactly 2 sleeps. |
| LlmClient.TerminalErrorIsNotRetried | packages/server/llm/client.ts:40-50 | A first failure that is not 429, or has no retry info, is thrown at once: one attempt, no sleep. |
| LlmClient.ExhaustionThrowsThirdError | packages/server/llm/client.ts:40-55 | Three 429 failures with retry info throw the third error after exactly two sleeps. |
| ConversationRepository.Empty | packages/server/repositories/conversation.repository.ts:17 | A new repository satisfies the invariant and holds no conversation. |
| ConversationRepository.Put | packages/server/repositories/conversation.repository.ts:27 | `Map.set`: the entry is stored under the conversation's id and the invariant is kept. A new key goes last in the key order, and an existing key keeps its place. |
| ConversationRepository.CreateConversation | packages/server/repositories/conversation.repository.ts:19-29 | A new empty conversation is stored under the fresh id, with created and updated times both `now`. No other id changes. When the id was new, the count grows by exactly one and the id goes last in the key order. |
| ConversationRepository.FindById | packages/server/repositories/conversation.repository.ts:31-33 | Returns the stored conversation exactly when the id is present, and none otherwise. |
| ConversationRepository.Save | packages/server/repositories/conversation.repository.ts:35-38 | Stores the conversation under its own id with `updatedAt` set to `now`. Every other id is unchanged. The count grows only when the id was new: a new id goes last in the key order, and an existing one keeps its place. |
| ConversationRepository.AddMessage | packages/server/repositories/conversation.repository.ts:40-49 | An unknown id gives none and leaves the store unchanged. A known id gets the message appended at the end: one longer, earlier messages intact, `updatedAt` set to `now`. Order, count and every other conversation are unchanged. |
| ConversationRepository.GetAll | packages/server/repositories/conversation.repository.ts:51-53 | Lists the stored conversations in key insertion order, one per key. |
| ConversationRepository.GetAllListsEveryEntry | packages/server/repositories/conversation.repository.ts:51-53 | A conversation is listed by `getAll` exactly when it is the one stored under its id. |
| ConversationRepository.Delete | packages/server/repositories/conversation.repository.ts:55-57 | Returns true exactly when the id was present. Afterwards the id is absent, and the count drops by one exactly when true was returned. Other ids are unchanged. The remaining keys keep their order: the deleted key's slot is closed, and an absent key leaves the order as it was. |
| ConversationRepository.Without | packages/server/repositories/conversation.repository.ts:55-57 | The remaining ids are exactly the others, still distinct. An absent id leaves the list as it was. |
| ConversationRepository.WithoutAt | packages/server/repositories/conversation.repository.ts:55-57 | Removing an id listed once, at index k, gives the list before k followed by the list after k. |
| ConversationRepository.Count | packages/server/repositories/conversation.repository.ts:59-61 | In a valid repository, `count()` is the number of keys in insertion order. |
| ConversationRepository.CountMatchesGetAll | packages/server/repositories/conversation.repository.ts:51-61 | `count()` equals the number of conversations `getAll()` returns. |
| ChatService.ModelRequestFor | packages/server/services/chat.service.ts:100-113 | With more than one message, the model gets a history that, followed by the last message, is the whole conversation. Otherwise it gets the prompt alone. |
| ChatService.Turn | packages/server/services/chat.service.ts:53-84 | On success the conversation gains exactly the user message and then the model's reply. The response carries the reply, the id and the new count. On failure only the user message stays and the error is passed through unchanged. `updatedAt` is the time of the last message added, while `createdAt` and the key order are kept. Other conversations are untouched. |
| ChatService.SendMessage | packages/server/services/chat.service.ts:34-89 | A non-empty unknown id throws "Conversation not found" and stores nothing. A missing or empty id starts a fresh conversation. The model is asked with the conversation's earlier messages as history, or with the prompt alone when there were none. Success adds two messages and reports the count; failure keeps the user message and rethrows. `updatedAt` is the time of the last message added. A named conversation keeps its `createdAt` and its place in the key order. A new conversation is created at `sentAt` and its id goes last. |
| ChatService.GetConversation | packages/server/services/chat.service.ts:119-121 | Returns exactly what the repository's `findById` returns. |
| ChatService.GetAllConversations | packages/server/services/chat.service.ts:123-125 | Returns exactly what the repository's `getAll` returns. |
| ChatService.DeleteConversation | packages/server/services/chat.service.ts:127-129 | Returns exactly what the repository's `delete` returns, and leaves the same store. |
| ReviewRepository.ForProduct | packages/server/repositories/review.repository.ts:9-10 | Every review the filter keeps belongs to the product. |
| ReviewRepository.ForProductCounts | packages/server/repositories/review.repository.ts:9-10 | The filter keeps every copy of every review of the product, and no review of another product. |
| ReviewRepository.InsertNewestFirst | packages/server/repositories/review.repository.ts:11 | Inserting into a newest-first list keeps it newest first and adds exactly that review. |
| ReviewRepository.SortNewestFirst | packages/server/repositories/review.repository.ts:11 | The result is ordered by `createdAt` descending and is a permutation of the input. |
| ReviewRepository.Take | packages/server/repositories/review.repository.ts:12 | A non-zero limit keeps a prefix of at most that length. A zero or absent limit keeps everything. |
| ReviewRepository.GetReviews | packages/server/repositories/review.repository.ts:8-14 | Returns only the product's reviews, newest first. With a non-zero limit it returns exactly that many, or all of them when fewer exist. With a zero or absent limit it returns all of them. |
| ReviewRepository.GetReviewsKeepsNewest | packages/server/repositories/review.repository.ts:9-13 | Any review of the product the limit leaves out is no newer than every review returned. |
| ReviewRepository.StoreReviewSummary | packages/server/repositories/review.repository.ts:16-31 | Afterwards exactly one record exists for the product, holding the given content. It was generated `now` and expires 7 days (604 800 000 ms) later, so expiry is after generation. Other products' records are unchanged. |
| ReviewRepository.Upsert | packages/server/repositories/review.repository.ts:26-30 | Afterwards the key is stored. It holds the update payload if the key existed before, and the create payload otherwise. Other keys are unchanged. |
| ReviewRepository.StoreIsUpsert | packages/server/repositories/review.repository.ts:19-30 | The stored record is the same whatever the store held before, because the create and update payloads are identical. |
| ReviewRepository.StoreTwiceKeepsSecond | packages/server/repositories/review.repository.ts:26-30 | Two stores for one product leave only the second record. |
| ReviewRepository.GetReviewSummary | packages/server/repositories/review.repository.ts:33-37 | Returns the product's record exactly when one exists, and none otherwise. |
| ReviewService.Contents | packages/server/services/review.service.ts:13 | The i-th string is the i-th review's content. |
| ReviewService.ReviewsToSummarize | packages/server/services/review.service.ts:12 | Exactly the smaller of 10 and the product's review count, all of that product, newest first, drawn from its reviews. |
| ReviewService.SummaryInput | packages/server/services/review.service.ts:13 | No reviews give the empty text. One review gives exactly its content. With more, the text starts with the first review's content. |
| ReviewService.SummaryInputInOrder | packages/server/services/review.service.ts:13 | Each further review adds a blank line and its content at the end, so the summarizer reads the reviews in query order. |
| ReviewService.OrFallback | packages/server/services/review.service.ts:15-17 | The result is never empty. A non-empty summary is kept; an empty one becomes `'No summary available'`. |
| ReviewService.SummarizeReviews | packages/server/services/review.service.ts:5-22 | A hit returns the stored record as is. It checks no expiry, stores nothing and does not call the summarizer. A miss summarizes the joined newest reviews. The result, after the fallback, is both stored for the product and returned. The stored record carries the product id, `generatedAt = now` and an expiry seven days later. Other products are unchanged. A summarizer error propagates and nothing is stored. |
| ReviewService.SecondCallHits | packages/server/services/review.service.ts:19-21 | After a miss that stored a summary, the next call hits the cache, changes nothing and answers with a record holding the same text. |
| ReviewService.ExpiredSummaryIsServed | packages/server/services/review.service.ts:6-10 | A stored summary whose expiry has passed is still returned. |
| ReviewService.HitAnswersWithRecord | packages/server/services/review.service.ts:9 | On a hit the answer is the stored record, not a summary string. |
| ReviewService.SummarizeReviewsText | packages/server/services/review.service.ts:5-22 | Corrected variant: same effect on the store, and the answer on success is the content cached for the product, on a hit as on a miss. |
| ChatController.ValidationIssues | packages/server/controllers/chat.controller.ts:6-12 | There are no issues exactly when the prompt has 1 to 10000 characters and any conversation id passes the UUID check. An empty prompt reports "Prompt cannot be empty"; an over-long one reports the length message. An id failing the UUID check reports "Invalid conversation ID format" on `conversationId`. Only these three issues can appear, and with a valid prompt every issue is about the id. |
| ChatController.ErrorResponse | packages/server/controllers/chat.controller.ts:46-68 | Status 404 exactly for the message "Conversation not found", checked first. Status 429 with `RATE_LIMIT_EXCEEDED` exactly for any other message containing "429". Status 500 for everything else. |
| ChatController.SendMessage | packages/server/controllers/chat.controller.ts:21-69 | An invalid body gets 400 with the issues and leaves the store unchanged. A valid one gets the service's result with 200, or its error mapped by `ErrorResponse`. The status is always one of 200/400/404/429/500. |
| ChatController.InvalidRequestSkipsService | packages/server/controllers/chat.controller.ts:24-35 | An empty or over-long prompt gets 400, and neither the answer nor the store depends on the model, the fresh id or the clock. |
| ChatController.UnknownConversationIsNotFound | packages/server/controllers/chat.controller.ts:49-54 | A valid request for a conversation that is not stored gets 404 "Conversation not found" and changes nothing. |
| ChatController.Overview | packages/server/controllers/chat.controller.ts:105-117 | `messageCount` is the number of messages. Without messages, `lastMessage` is "No messages yet". Otherwise it is at most the first 100 characters of the last message's content followed by "...", even when nothing was cut. |
| ChatController.GetAllConversations | packages/server/controllers/chat.controller.ts:101-126 | Status 200 with one overview per stored conversation, in insertion order. The list is exactly as long as `count()`. |
| ChatController.GetConversation | packages/server/controllers/chat.controller.ts:71-99 | 400 for an id failing the UUID check, before any lookup. 404 when nothing is stored under it. Otherwise 200 with the stored conversation. |
| ChatController.DeleteConversation | packages/server/controllers/chat.controller.ts:128-157 | 400 and no change for an id failing the UUID check. Otherwise the id is deleted: 200 with the count one lower when it existed, and 404 with the count unchanged when it did not. |
| JsBuiltins.Includes | packages/server/controllers/chat.controller.ts:57 | True exactly when the part occurs somewhere in the string. |
| JsBuiltins.Truncate | packages/server/controllers/chat.controller.ts:112-115 | The result is a prefix of the string, with length equal to the string's length or n, whichever is smaller. |
| JsBuiltins.Join | packages/server/services/review.service.ts:13 | An empty list joins to the empty string, and one part joins to itself. Otherwise the result starts with the first part, and its length is the parts' total length plus one separator between each pair of neighbours. |
| JsBuiltins.JoinSnoc | packages/server/services/review.service.ts:13 | Joining one more part adds the separator and that part at the end. |

## Findings

| source | as written | input that shows it | evidently intended | confidence | as-written member | corrected member |
|---|---|---|---|---|---|---|
| packages/server/services/review.service.ts:9 | On a cache hit, `summarizeReviews` (declared `Promise<string>`) returns the stored summary record | product 1 with a stored summary whose content is "Great product": the call answers with the whole record `{productId, content, generatedAt, expiryDate}` instead of "Great product" | return the record's `content` | medium, not executed | ReviewService.HitAnswersWithRecord | ReviewService.SummarizeReviewsText |

Nothing else in the model calls the summarizer, so both variants stand side
by side. `SummarizeReviews` is the code as written.

## Left out

- Gemini SDK calls (`getGenerativeModel`, `generateContent`, `startChat`, `sendMessage`) are foreign library code. They are modelled as functions from attempt or request to outcome.
- `llmClient.summarizeReviews` is not defined in `client.ts`. It is a function parameter of `SummarizeReviews`. A `null` or `undefined` answer is folded into the empty string, which is the other falsy answer.
- Prisma is replaced by values: the review table is a sequence and the summary table is a map keyed by `productId`. Store failures and connection errors are not modelled.
- ReviewRepository.GetReviews: rows with equal `createdAt` come back in an order of the model's choosing, because the database promises no particular order for them. Negative limits (Prisma's take-from-the-end) are not modelled: the limit is a `nat`.
- ReviewRepository.StoreReviewSummary: the model reads the clock once. The expiry is exactly 7 × 24 h after `generatedAt`. The source reads the clock twice (`new Date()` and `dayjs()`), and dayjs adds calendar days, which can differ by an hour across a daylight-saving change.
- ConversationRepository.CreateConversation: `createdAt` and `updatedAt` are one clock reading, `now`. The source calls `new Date()` twice (conversation.repository.ts:23-24), so the two can differ by a millisecond.
- ChatService.SendMessage: the clock is two timestamps. `sentAt` is used for creation and the user message, `repliedAt` for the reply. The source reads `new Date()` separately for each.
- Conversations are values, not shared mutable objects. The code always re-reads them through `addMessage`'s result, so sharing makes no visible difference here.
- ChatController.ValidationIssues: the prompt is assumed to be a string, so a missing or non-string prompt is not modelled. Lengths count Unicode scalar values, whereas Zod counts UTF-16 code units. Zod's UUID syntax is an abstract predicate.
- ChatController.Overview: `substring(0, 100)` counts UTF-16 code units in the source but characters here.
- The `catch` blocks answering 500 in `getConversation`, `getAllConversations` and `deleteConversation` are not modelled. None of the modelled operations can throw there.
- `console` logging, the prompt template and park-info file loading in `chat.service.ts`, the Express routes, server start-up and all React components are I/O or UI glue.
- Concurrency between requests is not modelled. The source does no coordination, and each request is modelled as one sequential step.

=== FILE: chat_controller.dfy ===
/** `ChatController` (packages/server/controllers/chat.controller.ts): the
    HTTP decisions of the chat routes, as functions from the request and the
    repository to the status and JSON body sent back.

    Zod's UUID check is the predicate `isUuid`; the chat model, fresh ids
    and the clock are passed through to the service. */
module ChatController {
  import opened Wrappers
  import opened JsBuiltins
  import opened ConversationRepository
  import ChatService

  const MinPromptLength: nat := 1
  const MaxPromptLength: nat := 10000
  /** `substring(0, 100)` in the conversation list. */
  const PreviewLength: nat := 100
  const Ellipsis: string := "..."
  const NoMessagesYet: string := "No messages yet"

  const StatusOk: int := 200
  const StatusBadRequest: int := 400
  const StatusNotFound: int := 404
  const StatusTooManyRequests: int := 429
  const StatusServerError: int := 500

  const PromptEmpty: string := "Prompt cannot be empty"
  const PromptTooLong: string := "Prompt too long (max 10,000 characters)"
  const InvalidConversationId: string := "Invalid conversation ID format"
  const RateLimitExceeded: string := "Rate limit exceeded. Please wait a moment and try again."
  const RateLimitErrorCode: string := "RATE_LIMIT_EXCEEDED"
  const InternalServerError: string := "Internal server error"
  const DeletedSuccessfully: string := "Conversation deleted successfully"

  /** One failed check of the request schema. */
  datatype Issue = Issue(field: string, message: string)

  /** The body of `POST /chat`. */
  datatype ChatRequest = ChatRequest(prompt: string, conversationId: Option<string>)

  /** One entry of the conversation list. */
  datatype ConversationOverview = ConversationOverview(
    id: Id,
    messageCount: nat,
    createdAt: Timestamp,
    updatedAt: Timestamp,
    lastMessage: string)

  /** The JSON bodies the controller sends. */
  datatype Body =
    | ValidationFailed(details: seq<Issue>)
    | ErrorMessage(error: string)
    | RateLimited(error: string, code: string)
    | Chat(response: ChatService.ChatResponse)
    | ConversationDetail(conversation: Conversation)
    | ConversationList(items: seq<ConversationOverview>)
    | Confirmation(message: string)

  datatype HttpResponse = HttpResponse(status: int, body: Body)

  /** `ChatRequestSchema.safeParse`: the issues found, prompt first. */
  function ValidationIssues(request: ChatRequest, isUuid: string -> bool): (issues: seq<Issue>)
    ensures |issues| == 0 <==>
      && MinPromptLength <= |request.prompt| <= MaxPromptLength
      && (request.conversationId.Some? ==> isUuid(request.conversationId.value))
    ensures |issues| <= 2
    ensures |request.prompt| == 0 ==> Issue("prompt", PromptEmpty) in issues
    ensures |request.prompt| > MaxPromptLength ==> Issue("prompt", PromptTooLong) in issues
    ensures request.conversationId.Some? && !isUuid(request.conversationId.value) ==>
      Issue("conversationId", InvalidConversationId) in issues
    // Only the schema's three messages can be reported, each on its own field.
    ensures forall x | x in issues ::
      x in [Issue("prompt", PromptEmpty), Issue("prompt", PromptTooLong), Issue("conversationId", InvalidConversationId)]
    ensures MinPromptLength <= |request.prompt| <= MaxPromptLength ==>
      forall x | x in issues :: x.field == "conversationId"
  {
    var promptIssues :=
      if |request.prompt| < MinPromptLength then [Issue("prompt", PromptEmpty)]
      else if |request.prompt| > MaxPromptLength then [Issue("prompt", PromptTooLong)]
      else [];
    var idIssues :=
      if request.conversationId.Some? && !isUuid(request.conversationId.value) then [Issue("conversationId", InvalidConversationId)]
      else [];
    promptIssues + idIssues
  }

  /** The `catch` of `sendMessage`: not-found first, then anything
      mentioning 429, then a server error. */
  function ErrorResponse(error: Error): (response: HttpResponse)
    ensures response.status == StatusNotFound <==> error.message == ChatService.ConversationNotFound
    ensures response.status == StatusTooManyRequests <==>
      error.message != ChatService.ConversationNotFound && Includes(error.message, "429")
    ensures response.status == StatusServerError <==>
      error.message != ChatService.ConversationNotFound && !Includes(error.message, "429")
    ensures response.status == StatusNotFound ==> response.body == ErrorMessage(ChatService.ConversationNotFound)
    ensures response.status == StatusTooManyRequests ==> response.body == RateLimited(RateLimitExceeded, RateLimitErrorCode)
    ensures response.status == StatusServerError ==> response.body == ErrorMessage(InternalServerError)
  {
    if error.message == ChatService.ConversationNotFound then
      HttpResponse(StatusNotFound, ErrorMessage(ChatService.ConversationNotFound))
    else if Includes(error.message, "429") then
      HttpResponse(StatusTooManyRequests, RateLimited(RateLimitExceeded, RateLimitErrorCode))
    else
      HttpResponse(StatusServerError, ErrorMessage(InternalServerError))
  }

  /** `sendMessage(req, res)`: validate, run the chat turn, and answer with
      its result or the mapped error. */
  function SendMessage(
    repo: Repository,
    request: ChatRequest,
    isUuid: string -> bool,
    freshId: Id,
    sentAt: Timestamp,
    repliedAt: Timestamp,
    model: ChatService.ModelRequest -> Result<string, Error>): (out: (Repository, HttpResponse))
    requires Valid(repo)
    ensures Valid(out.0)
    ensures |ValidationIssues(request, isUuid)| > 0 ==>
      out == (repo, HttpResponse(StatusBadRequest, ValidationFailed(ValidationIssues(request, isUuid))))
    ensures |ValidationIssues(request, isUuid)| == 0 ==>
      var (after, result) := ChatService.SendMessage(repo, request.prompt, request.conversationId, freshId, sentAt, repliedAt, model);
      && out.0 == after
      && (result.Success? ==> out.1 == HttpResponse(StatusOk, Chat(result.value)))
      && (result.Failure? ==> out.1 == ErrorResponse(result.error))
    ensures out.1.status in {StatusOk, StatusBadRequest, StatusNotFound, StatusTooManyRequests, StatusServerError}
  {
    var issues := ValidationIssues(request, isUuid);
    if |issues| > 0 then
      (repo, HttpResponse(StatusBadRequest, ValidationFailed(issues)))
    else
      var (after, result) := ChatService.SendMessage(repo, request.prompt, request.conversationId, freshId, sentAt, repliedAt, model);
      match result
      case Success(response) => (after, HttpResponse(StatusOk, Chat(response)))
      case Failure(error) => (after, ErrorResponse(error))
  }

  /** A request that fails validation never reaches the service: the answer
      and the store do not depend on the model, the fresh id or the clock. */
  lemma InvalidRequestSkipsService(
    repo: Repository, request: ChatRequest, isUuid: string -> bool,
    freshId: Id, sentAt: Timestamp, repliedAt: Timestamp, model: ChatService.ModelRequest -> Result<string, Error>,
    freshId': Id, sentAt': Timestamp, repliedAt': Timestamp, model': ChatService.ModelRequest -> Result<string, Error>)
    requires Valid(repo)
    requires |request.prompt| < MinPromptLength || |request.prompt| > MaxPromptLength
    ensures SendMessage(repo, request, isUuid, freshId, sentAt, repliedAt, model)
         == SendMessage(repo, request, isUuid, freshId', sentAt', repliedAt', model')
    ensures SendMessage(repo, request, isUuid, freshId, sentAt, repliedAt, model).0 == repo
    ensures SendMessage(repo, request, isUuid, freshId, sentAt, repliedAt, model).1.status == StatusBadRequest
  {
  }

  /** A valid request naming a conversation that is not stored gets 404 and
      changes nothing. */
  lemma UnknownConversationIsNotFound(
    repo: Repository, request: ChatRequest, isUuid: string -> bool,
    freshId: Id, sentAt: Timestamp, repliedAt: Timestamp, model: ChatService.ModelRequest -> Result<string, Error>)
    requires Valid(repo)
    requires MinPromptLength <= |request.prompt| <= MaxPromptLength
    requires request.conversationId.Some? && isUuid(request.conversationId.value)
    requires request.conversationId.value != "" && request.conversationId.value !in repo.entries
    ensures SendMessage(repo, request, isUuid, freshId, sentAt, repliedAt, model)
         == (repo, HttpResponse(StatusNotFound, ErrorMessage(ChatService.ConversationNotFound)))
  {
  }

  /** The list entry for one conversation. */
  function Overview(conversation: Conversation): (o: ConversationOverview)
    ensures o.id == conversation.id && o.messageCount == |conversation.messages|
    ensures o.createdAt == conversation.createdAt && o.updatedAt == conversation.updatedAt
    ensures |conversation.messages| == 0 ==> o.lastMessage == NoMessagesYet
    ensures |conversation.messages| > 0 ==>
      var content := conversation.messages[|conversation.messages| - 1].content;
      && |o.lastMessage| == (if |content| < PreviewLength then |content| else PreviewLength) + |Ellipsis|
      && o.lastMessage[..|o.lastMessage| - |Ellipsis|] <= content
      && o.lastMessage[|o.lastMessage| - |Ellipsis|..] == Ellipsis
  {
    var messages := conversation.messages;
    var lastMessage :=
      if |messages| > 0 then Truncate(messages[|messages| - 1].content, PreviewLength) + Ellipsis
      else NoMessagesYet;
    ConversationOverview(conversation.id, |messages|, conversation.createdAt, conversation.updatedAt, lastMessage)
  }

  /** `getAllConversations(req, res)`: one entry per stored conversation, in
      insertion order. */
  function GetAllConversations(repo: Repository): (response: HttpResponse)
    requires Valid(repo)
    ensures response.status == StatusOk && response.body.ConversationList?
    ensures |response.body.items| == |repo.order| == Count(repo)
    ensures forall i | 0 <= i < |response.body.items| ::
      response.body.items[i] == Overview(repo.entries[repo.order[i]])
  {
    var all := ChatService.GetAllConversations(repo);
    CountMatchesGetAll(repo);
    HttpResponse(StatusOk, ConversationList(seq(|all|, i requires 0 <= i < |all| => Overview(all[i]))))
  }

  /** `getConversation(req, res)`: 400 for an id that is not a UUID, before
      any lookup; 404 when nothing is stored under it. */
  function GetConversation(repo: Repository, id: Id, isUuid: string -> bool): (response: HttpResponse)
    ensures !isUuid(id) ==> response == HttpResponse(StatusBadRequest, ErrorMessage(InvalidConversationId))
    ensures isUuid(id) && id !in repo.entries ==> response == HttpResponse(StatusNotFound, ErrorMessage(ChatService.ConversationNotFound))
    ensures isUuid(id) && id in repo.entries ==> response == HttpResponse(StatusOk, ConversationDetail(repo.entries[id]))
  {
    if !isUuid(id) then
      HttpResponse(StatusBadRequest, ErrorMessage(InvalidConversationId))
    else
      match ChatService.GetConversation(repo, id)
      case None => HttpResponse(StatusNotFound, ErrorMessage(ChatService.ConversationNotFound))
      case Some(conversation) => HttpResponse(StatusOk, ConversationDetail(conversation))
  }

  /** `deleteConversation(req, res)`: 400 for an id that is not a UUID and
      nothing deleted; otherwise delete, and 404 when nothing was there. */
  function DeleteConversation(repo: Repository, id: Id, isUuid: string -> bool): (out: (Repository, HttpResponse))
    requires Valid(repo)
    ensures Valid(out.0)
    ensures !isUuid(id) ==> out == (repo, HttpResponse(StatusBadRequest, ErrorMessage(InvalidConversationId)))
    ensures isUuid(id) ==> FindById(out.0, id) == None
    ensures isUuid(id) && id in repo.entries ==>
      out.1 == HttpResponse(StatusOk, Confirmation(DeletedSuccessfully)) && Count(out.0) == Count(repo) - 1
    ensures isUuid(id) && id !in repo.entries ==>
      out.1 == HttpResponse(StatusNotFound, ErrorMessage(ChatService.ConversationNotFound)) && Count(out.0) == Count(repo)
    ensures forall other | other != id :: FindById(out.0, other) == FindById(repo, other)
  {
    if !isUuid(id) then
      (repo, HttpResponse(StatusBadRequest, ErrorMessage(InvalidConversationId)))
    else
      var (after, deleted) := ChatService.DeleteConversation(repo, id);
      if deleted then (after, HttpResponse(StatusOk, Confirmation(DeletedSuccessfully)))
      else (after, HttpResponse(StatusNotFound, ErrorMessage(ChatService.ConversationNotFound)))
  }
}

=== FILE: chat_service.dfy ===
/** `ChatService` (packages/server/services/chat.service.ts): one chat turn
    over the conversation repository.

    The chat model is a function from what it is asked to what it answers (a
    reply or a thrown error); fresh ids and the clock are parameters. */
module ChatService {
  import opened Wrappers
  import opened JsBuiltins
  import opened ConversationRepository

  const ConversationNotFound: string := "Conversation not found"

  /** What `sendMessage` resolves to. */
  datatype ChatResponse = ChatResponse(conversationId: Id, message: string, messageCount: nat)

  /** What the chat model is asked: a follow-up with the earlier turns as
      history (`startChat({history}).sendMessage(prompt)`), or a first prompt
      alone (`generateContent(prompt)`). */
  datatype ModelRequest = FollowUp(history: seq<Message>, prompt: string) | FirstMessage(prompt: string)

  /** The request branch of `generateAIResponse`: with more than one message,
      the history is every message but the just-added last one. */
  function ModelRequestFor(prompt: string, conversation: Conversation): (req: ModelRequest)
    ensures req.prompt == prompt
    ensures req.FollowUp? <==> |conversation.messages| > 1
    ensures req.FollowUp? ==> req.history + [conversation.messages[|conversation.messages| - 1]] == conversation.messages
  {
    var messages := conversation.messages;
    if |messages| > 1 then FollowUp(messages[..|messages| - 1], prompt) else FirstMessage(prompt)
  }

  /** `if (conversationId)`: an absent or empty id asks for a new conversation. */
  predicate Truthy(conversationId: Option<Id>) {
    conversationId.Some? && conversationId.value != ""
  }

  /** The conversation a turn goes to: the given id, or the fresh one. */
  function TargetId(conversationId: Option<Id>, freshId: Id): Id {
    if Truthy(conversationId) then conversationId.value else freshId
  }

  /** The messages the target conversation held before the turn. */
  function MessagesBefore(repo: Repository, conversationId: Option<Id>): seq<Message>
    requires Truthy(conversationId) ==> conversationId.value in repo.entries
  {
    if Truthy(conversationId) then repo.entries[conversationId.value].messages else []
  }

  /** The request the model gets for a turn on a conversation that held
      `before`: the earlier messages as history, or the prompt alone. */
  function RequestAfter(before: seq<Message>, prompt: string): ModelRequest {
    if |before| > 0 then FollowUp(before, prompt) else FirstMessage(prompt)
  }

  /** The part of `sendMessage` after the conversation is found or created:
      append the user's message, ask the model, append its reply. */
  function Turn(
    repo: Repository,
    id: Id,
    prompt: string,
    sentAt: Timestamp,
    repliedAt: Timestamp,
    model: ModelRequest -> Result<string, Error>): (out: (Repository, Result<ChatResponse, Error>))
    requires Valid(repo) && id in repo.entries
    ensures Valid(out.0) && id in out.0.entries
    ensures forall other | other != id :: FindById(out.0, other) == FindById(repo, other)
    // Each `addMessage` stamps `updatedAt`; creation time and key order stay.
    ensures out.0.order == repo.order
    ensures out.0.entries[id].createdAt == repo.entries[id].createdAt
    ensures out.0.entries[id].updatedAt == if out.1.Success? then repliedAt else sentAt
    ensures
      var before := repo.entries[id].messages;
      var userMessage := Message(User, prompt, sentAt);
      match out.1
      case Success(response) =>
        && model(RequestAfter(before, prompt)) == Success(response.message)
        && out.0.entries[id].messages == before + [userMessage, Message(Model, response.message, repliedAt)]
        && response.conversationId == id
        && response.messageCount == |before| + 2
      case Failure(error) =>
        && model(RequestAfter(before, prompt)) == Failure(error)
        && out.0.entries[id].messages == before + [userMessage]
  {
    var before := repo.entries[id].messages;
    var (repo1, withUser) := AddMessage(repo, id, Message(User, prompt, sentAt), sentAt);
    assert withUser.value.messages == before + [Message(User, prompt, sentAt)];
    assert ModelRequestFor(prompt, withUser.value) == RequestAfter(before, prompt);
    match model(ModelRequestFor(prompt, withUser.value))
    case Failure(error) => (repo1, Failure(error))
    case Success(reply) =>
      var (repo2, withReply) := AddMessage(repo1, withUser.value.id, Message(Model, reply, repliedAt), repliedAt);
      assert withReply.value.messages == withUser.value.messages + [Message(Model, reply, repliedAt)];
      (repo2, Success(ChatResponse(withReply.value.id, reply, |withReply.value.messages|)))
  }

  /** Whether `sendMessage` names a conversation the repository does not hold. */
  predicate UnknownConversation(repo: Repository, conversationId: Option<Id>) {
    Truthy(conversationId) && conversationId.value !in repo.entries
  }

  /** `sendMessage(prompt, conversationId)`: find or create the conversation,
      then take the turn. The user message is stamped `sentAt`, the reply
      `repliedAt`. */
  function SendMessage(
    repo: Repository,
    prompt: string,
    conversationId: Option<Id>,
    freshId: Id,
    sentAt: Timestamp,
    repliedAt: Timestamp,
    model: ModelRequest -> Result<string, Error>): (out: (Repository, Result<ChatResponse, Error>))
    requires Valid(repo)
    ensures Valid(out.0)
    ensures UnknownConversation(repo, conversationId) ==>
      out == (repo, Failure(Error(ConversationNotFound)))
    ensures !UnknownConversation(repo, conversationId) ==>
      var id := TargetId(conversationId, freshId);
      var before := MessagesBefore(repo, conversationId);
      var userMessage := Message(User, prompt, sentAt);
      && id in out.0.entries
      && (forall other | other != id :: FindById(out.0, other) == FindById(repo, other))
      && out.0.entries[id].updatedAt == (if out.1.Success? then repliedAt else sentAt)
      && match out.1
         case Success(response) =>
           && model(RequestAfter(before, prompt)) == Success(response.message)
           && out.0.entries[id].messages == before + [userMessage, Message(Model, response.message, repliedAt)]
           && response.conversationId == id
           && response.messageCount == |before| + 2
         case Failure(error) =>
           && model(RequestAfter(before, prompt)) == Failure(error)
           && out.0.entries[id].messages == before + [userMessage]
    // A named conversation keeps its place; a new one goes last, created `sentAt`.
    ensures Truthy(conversationId) ==> out.0.order == repo.order
    ensures Truthy(conversationId) && conversationId.value in repo.entries ==>
      out.0.entries[conversationId.value].createdAt == repo.entries[conversationId.value].createdAt
    ensures !Truthy(conversationId) && freshId !in repo.entries ==>
      && out.0.order == repo.order + [freshId]
      && out.0.entries[freshId].createdAt == sentAt
  {
    if Truthy(conversationId) && FindById(repo, conversationId.value).None? then
      (repo, Failure(Error(ConversationNotFound)))
    else
      var (repo0, conversation) :=
        if Truthy(conversationId) then (repo, FindById(repo, conversationId.value).value)
        else CreateConversation(repo, freshId, sentAt);
      Turn(repo0, conversation.id, prompt, sentAt, repliedAt, model)
  }

  /** `getConversation(id)`: exactly the repository's `findById`. */
  function GetConversation(repo: Repository, id: Id): (r: Option<Conversation>)
    ensures r == FindById(repo, id)
  {
    FindById(repo, id)
  }

  /** `getAllConversations()`: exactly the repository's `getAll`. */
  function GetAllConversations(repo: Repository): (r: seq<Conversation>)
    requires Valid(repo)
    ensures r == GetAll(repo)
  {
    GetAll(repo)
  }

  /** `deleteConversation(id)`: exactly the repository's `delete`. */
  function DeleteConversation(repo: Repository, id: Id): (r: (Repository, bool))
    requires Valid(repo)
    ensures r == Delete(repo, id)
  {
    Delete(repo, id)
  }
}

=== FILE: conversation_repository.dfy ===
/** `ConversationRepository` (packages/server/repositories/conversation.repository.ts):
    an in-memory JavaScript `Map` from conversation id to conversation.

    A `Map` iterates its keys in insertion order, so the store keeps that order
    beside the entries. Fresh ids (`uuidv4()`) and the clock (`new Date()`) are
    parameters. */
module ConversationRepository {
  import opened Wrappers
  import opened JsBuiltins

  type Id = string

  datatype Role = User | Model

  datatype Message = Message(role: Role, content: string, timestamp: Timestamp)

  datatype Conversation = Conversation(
    id: Id,
    messages: seq<Message>,
    createdAt: Timestamp,
    updatedAt: Timestamp)

  /** The `Map`: its keys in insertion order, and the entry under each key. */
  datatype Repository = Repository(order: seq<Id>, entries: map<Id, Conversation>)

  /** No key is listed twice. */
  ghost predicate Distinct(ids: seq<Id>) {
    forall i, j | 0 <= i < j < |ids| :: ids[i] != ids[j]
  }

  /** The repository's invariant: the order lists exactly the stored keys,
      once each, and each conversation is stored under its own id. */
  ghost predicate Valid(repo: Repository) {
    && Distinct(repo.order)
    && (forall id :: id in repo.order <==> id in repo.entries)
    && (forall id | id in repo.entries :: repo.entries[id].id == id)
  }

  /** A repository as the constructor leaves it. */
  function Empty(): (repo: Repository)
    ensures Valid(repo) && Count(repo) == 0
  {
    Repository([], map[])
  }

  /** `map.set(c.id, c)`: a new key goes last, an existing key keeps its place. */
  function Put(repo: Repository, c: Conversation): (r: Repository)
    requires Valid(repo)
    ensures Valid(r)
    ensures r.entries == repo.entries[c.id := c]
    ensures c.id in repo.entries ==> r.order == repo.order
    ensures c.id !in repo.entries ==> r.order == repo.order + [c.id]
  {
    if c.id in repo.entries then
      Repository(repo.order, repo.entries[c.id := c])
    else
      Repository(repo.order + [c.id], repo.entries[c.id := c])
  }

  /** `ids` without `id`, in the same order. */
  function Without(ids: seq<Id>, id: Id): (r: seq<Id>)
    ensures forall x :: x in r <==> x in ids && x != id
    ensures Distinct(ids) ==> Distinct(r)
    ensures |r| <= |ids|
    ensures id !in ids ==> r == ids
  {
    if |ids| == 0 then []
    else if ids[0] == id then Without(ids[1..], id)
    else
      var rest := Without(ids[1..], id);
      assert Distinct(ids) ==> ids[0] !in ids[1..];
      [ids[0]] + rest
  }

  /** Removing a key listed once, at index `k`, closes the gap and keeps
      every other key in its order. */
  lemma {:induction false} WithoutAt(ids: seq<Id>, id: Id, k: nat)
    requires Distinct(ids) && k < |ids| && ids[k] == id
    ensures Without(ids, id) == ids[..k] + ids[k + 1..]
    decreases k
  {
    if k == 0 {
      assert id !in ids[1..];
    } else {
      assert ids[1..][k - 1] == id;
      WithoutAt(ids[1..], id, k - 1);
      assert ids[..k] == [ids[0]] + ids[1..][..k - 1];
      assert ids[k + 1..] == ids[1..][k..];
    }
  }

  /** `count()`: the `Map`'s size. */
  function Count(repo: Repository): (n: nat)
    ensures Valid(repo) ==> n == |repo.order|
  {
    SizeIsOrderLength(repo);
    |repo.entries|
  }

  /** In a valid repository the `Map`'s size is the number of ordered keys. */
  lemma SizeIsOrderLength(repo: Repository)
    ensures Valid(repo) ==> |repo.entries| == |repo.order|
  {
    if Valid(repo) {
      DistinctCardinality(repo.order);
      assert (set id | id in repo.order) == repo.entries.Keys;
    }
  }

  /** `createConversation()`: a new empty conversation stored under the fresh
      id, created and updated at `now`. */
  function CreateConversation(repo: Repository, freshId: Id, now: Timestamp): (r: (Repository, Conversation))
    requires Valid(repo)
    ensures Valid(r.0)
    ensures r.1.id == freshId && r.1.messages == []
    ensures r.1.createdAt == now && r.1.updatedAt == now
    ensures FindById(r.0, freshId) == Some(r.1)
    ensures forall id | id != freshId :: FindById(r.0, id) == FindById(repo, id)
    ensures freshId !in repo.entries ==> Count(r.0) == Count(repo) + 1
    ensures freshId !in repo.entries ==> r.0.order == repo.order + [freshId]
    ensures freshId in repo.entries ==> r.0.order == repo.order
  {
    var c := Conversation(freshId, [], now, now);
    (Put(repo, c), c)
  }

  /** `findById(id)`: the stored conversation, or `undefined`. */
  function FindById(repo: Repository, id: Id): (r: Option<Conversation>)
    ensures r.Some? <==> id in repo.entries
    ensures r.Some? ==> r.value == repo.entries[id]
  {
    if id in repo.entries then Some(repo.entries[id]) else None
  }

  /** `save(conversation)`: stamp `updatedAt` and store it under its id. */
  function Save(repo: Repository, conversation: Conversation, now: Timestamp): (r: Repository)
    requires Valid(repo)
    ensures Valid(r)
    ensures FindById(r, conversation.id) == Some(conversation.(updatedAt := now))
    ensures forall id | id != conversation.id :: FindById(r, id) == FindById(repo, id)
    ensures Count(r) == Count(repo) + (if conversation.id in repo.entries then 0 else 1)
    ensures conversation.id in repo.entries ==> r.order == repo.order
    ensures conversation.id !in repo.entries ==> r.order == repo.order + [conversation.id]
  {
    Put(repo, conversation.(updatedAt := now))
  }

  /** `addMessage(id, message)`: append to a stored conversation and stamp
      `updatedAt`; `null` and no change for an unknown id. */
  function AddMessage(repo: Repository, id: Id, message: Message, now: Timestamp): (r: (Repository, Option<Conversation>))
    requires Valid(repo)
    ensures Valid(r.0)
    ensures r.1.Some? <==> id in repo.entries
    ensures id !in repo.entries ==> r.0 == repo
    ensures id in repo.entries ==>
      var before := repo.entries[id];
      && r.1.value.id == id
      && |r.1.value.messages| == |before.messages| + 1
      && r.1.value.messages[..|before.messages|] == before.messages
      && r.1.value.messages[|before.messages|] == message
      && r.1.value.createdAt == before.createdAt
      && r.1.value.updatedAt == now
      && FindById(r.0, id) == r.1
    ensures forall other | other != id :: FindById(r.0, other) == FindById(repo, other)
    ensures r.0.order == repo.order && Count(r.0) == Count(repo)
  {
    match FindById(repo, id)
    case None => (repo, None)
    case Some(c) =>
      var updated := c.(messages := c.messages + [message], updatedAt := now);
      (Put(repo, updated), Some(updated))
  }

  /** `getAll()`: the conversations in insertion order. */
  function GetAll(repo: Repository): (r: seq<Conversation>)
    requires Valid(repo)
    ensures |r| == |repo.order|
    ensures forall i | 0 <= i < |r| :: r[i] == repo.entries[repo.order[i]]
  {
    seq(|repo.order|, i requires 0 <= i < |repo.order| => repo.entries[repo.order[i]])
  }

  /** `delete(id)`: `true` exactly when the id was stored; afterwards it is not. */
  function Delete(repo: Repository, id: Id): (r: (Repository, bool))
    requires Valid(repo)
    ensures Valid(r.0)
    ensures r.1 <==> id in repo.entries
    ensures FindById(r.0, id) == None
    ensures Count(r.0) == Count(repo) - (if r.1 then 1 else 0)
    ensures forall other | other != id :: FindById(r.0, other) == FindById(repo, other)
    ensures id !in repo.entries ==> r.0.order == repo.order
    ensures forall k | 0 <= k < |repo.order| && repo.order[k] == id ::
      r.0.order == repo.order[..k] + repo.order[k + 1..]
  {
    forall k | 0 <= k < |repo.order| && repo.order[k] == id
      ensures Without(repo.order, id) == repo.order[..k] + repo.order[k + 1..]
    {
      WithoutAt(repo.order, id, k);
    }
    var entries := repo.entries - {id};
    assert entries.Keys == repo.entries.Keys - {id};
    (Repository(Without(repo.order, id), entries), id in repo.entries)
  }

  /** A list of distinct ids has as many elements as the set of its ids. */
  lemma {:induction false} DistinctCardinality(ids: seq<Id>)
    requires Distinct(ids)
    ensures |set id | id in ids| == |ids|
    decreases |ids|
  {
    if |ids| > 0 {
      var tail := ids[1..];
      DistinctCardinality(tail);
      assert (set id | id in ids) == (set id | id in tail) + {ids[0]};
      assert ids[0] !in tail;
    }
  }

  /** `count()` is the number of conversations `getAll()` returns. */
  lemma CountMatchesGetAll(repo: Repository)
    requires Valid(repo)
    ensures Count(repo) == |GetAll(repo)|
  {
    DistinctCardinality(repo.order);
    assert (set id | id in repo.order) == repo.entries.Keys;
  }

  /** Every stored conversation appears in `getAll()`, and nothing else does. */
  lemma GetAllListsEveryEntry(repo: Repository, c: Conversation)
    requires Valid(repo)
    ensures c in GetAll(repo) <==> c.id in repo.entries && repo.entries[c.id] == c
  {
    var all := GetAll(repo);
    if c.id in repo.entries && repo.entries[c.id] == c {
      var i :| 0 <= i < |repo.order| && repo.order[i] == c.id;
      assert all[i] == c;
    }
  }
}

=== FILE: js_builtins.dfy ===
/** The few JavaScript built-ins the server core relies on, as pure functions:
    `Error` objects, `Date` values, `String.prototype.includes`,
    `String.prototype.substring` and `Array.prototype.join`. */
module JsBuiltins {

  /** A `Date`, as milliseconds since the epoch. */
  type Timestamp = int

  /** A thrown `Error`. The model keeps only its `message`, which is all that
      the controllers inspect. */
  datatype Error = Error(message: string)

  /** `part` occurs in `s` starting at index `i`. */
  ghost predicate OccursAt(s: string, part: string, i: int) {
    0 <= i && i + |part| <= |s| && s[i..i + |part|] == part
  }

  lemma OccursInTail(s: string, part: string, i: int)
    requires |s| > 0 && 0 <= i
    ensures OccursAt(s[1..], part, i) <==> OccursAt(s, part, i + 1)
  {
    if 0 <= i && i + |part| <= |s| - 1 {
      assert s[1..][i..i + |part|] == s[i + 1..i + 1 + |part|];
    }
  }

  /** `s.includes(part)`: whether `part` occurs anywhere in `s`. */
  function Includes(s: string, part: string): (b: bool)
    ensures b <==> exists i :: OccursAt(s, part, i)
    decreases |s|
  {
    if |part| > |s| then
      false
    else if s[..|part|] == part then
      assert OccursAt(s, part, 0);
      true
    else
      var b := Includes(s[1..], part);
      assert b ==> exists i :: OccursAt(s, part, i) by {
        if b {
          var i :| OccursAt(s[1..], part, i);
          OccursInTail(s, part, i);
        }
      }
      assert (exists i :: OccursAt(s, part, i)) ==> b by {
        if exists i :: OccursAt(s, part, i) {
          var i :| OccursAt(s, part, i);
          assert i != 0;
          OccursInTail(s, part, i - 1);
        }
      }
      b
  }

  /** `s.substring(0, n)`: the first `n` characters of `s`, or all of `s` when
      it is shorter. */
  function Truncate(s: string, n: nat): (r: string)
    ensures r <= s
    ensures |r| == if |s| < n then |s| else n
  {
    if |s| < n then s else s[..n]
  }

  /** The summed length of all `parts`. */
  function TotalLength(parts: seq<string>): nat {
    if |parts| == 0 then 0 else |parts[0]| + TotalLength(parts[1..])
  }

  /** `parts.join(sep)`: the parts in order with `sep` between neighbours. */
  function Join(parts: seq<string>, sep: string): (r: string)
    ensures |parts| == 0 ==> r == ""
    ensures |parts| == 1 ==> r == parts[0]
    ensures |parts| > 0 ==> parts[0] <= r
    ensures |parts| > 0 ==> |r| == TotalLength(parts) + |sep| * (|parts| - 1)
  {
    if |parts| == 0 then ""
    else if |parts| == 1 then parts[0]
    else parts[0] + sep + Join(parts[1..], sep)
  }

  /** Joining one more part at the end adds the separator and that part. */
  lemma {:induction false} JoinSnoc(parts: seq<string>, last: string, sep: string)
    requires |parts| > 0
    ensures Join(parts + [last], sep) == Join(parts, sep) + sep + last
    decreases |parts|
  {
    if |parts| == 1 {
      assert parts + [last] == [parts[0], last];
      assert (parts + [last])[1..] == [last];
    } else {
      assert (parts + [last])[1..] == parts[1..] + [last];
      JoinSnoc(parts[1..], last, sep);
    }
  }
}

=== FILE: llm_client.dfy ===
/** `llmClient.generateText` (packages/server/llm/client.ts): one call to the
    generation endpoint, retried on rate limiting.

    The provider is a function from the 0-based attempt index to what the
    endpoint answered on that attempt; every call the client makes is recorded
    in `sent` and every `sleep` in `sleeps` (milliseconds), so nothing waits
    and nothing goes over the network. */
module LlmClient {
  import opened Wrappers

  const DefaultModel: string := "gemini-2.5-flash-lite"
  const DefaultTemperature: real := 0.2
  const DefaultMaxOutputTokens: int := 300

  /** The loop's bound: `attempt < 3`. */
  const MaxAttempts: nat := 3
  /** The only status code that may be retried. */
  const RateLimitCode: int := 429
  /** Used when the retry info carries no `retryDelaySeconds`. */
  const DefaultRetryDelaySeconds: real := 1.0
  const MillisPerSecond: real := 1000.0

  /** The provider's retry hint; the delay may be missing. */
  datatype RetryInfo = RetryInfo(retryDelaySeconds: Option<real>)

  /** A rejected `generateContent` call: its status code, the optional retry
      hint and the message it carries. */
  datatype ProviderError = ProviderError(code: int, retryInfo: Option<RetryInfo>, message: string)

  /** What the endpoint answers to one attempt. */
  datatype Outcome = Generated(text: string) | Rejected(error: ProviderError)

  /** The options object passed to `generateText`; absent fields take defaults. */
  datatype TextOptions = TextOptions(
    model: Option<string>,
    prompt: string,
    temperature: Option<real>,
    maxOutputTokens: Option<int>)

  /** One `generateContent` call: the model chosen, the single user turn and
      the generation config. */
  datatype GenerationRequest = GenerationRequest(
    model: string,
    prompt: string,
    temperature: real,
    maxOutputTokens: int)

  /** The request every attempt of one `generateText` call sends. */
  function RequestFor(options: TextOptions): (req: GenerationRequest)
    ensures req.prompt == options.prompt
    ensures req.model == (if options.model.Some? then options.model.value else DefaultModel)
    ensures req.temperature == (if options.temperature.Some? then options.temperature.value else DefaultTemperature)
    ensures req.maxOutputTokens == (if options.maxOutputTokens.Some? then options.maxOutputTokens.value else DefaultMaxOutputTokens)
  {
    GenerationRequest(
      options.model.GetOr(DefaultModel),
      options.prompt,
      options.temperature.GetOr(DefaultTemperature),
      options.maxOutputTokens.GetOr(DefaultMaxOutputTokens))
  }

  /** A failure on `attempt` is retried: rate limited, with retry info, and
      not on the last attempt. */
  function Retryable(error: ProviderError, attempt: nat): (r: bool)
    ensures r ==> attempt < 2 && error.code == 429 && error.retryInfo.Some?
    ensures !r ==> attempt >= 2 || error.code != 429 || error.retryInfo.None?
  {
    error.code == RateLimitCode && error.retryInfo.Some? && attempt < MaxAttempts - 1
  }

  /** The sleep before the next attempt, in milliseconds. */
  function RetryDelayMs(error: ProviderError): (ms: real)
    requires error.retryInfo.Some?
    ensures error.retryInfo.value.retryDelaySeconds.None? ==> ms == 1000.0
    ensures error.retryInfo.value.retryDelaySeconds.Some? ==>
      ms == error.retryInfo.value.retryDelaySeconds.value * 1000.0
  {
    error.retryInfo.value.retryDelaySeconds.GetOr(DefaultRetryDelaySeconds) * MillisPerSecond
  }

  /** Everything one `generateText` call does: what it returns or throws, how
      many attempts it made, and the sleeps between them. */
  datatype Run = Run(result: Result<string, ProviderError>, attempts: nat, sleeps: seq<real>)

  /** The attempts made so far were all rate limited and retried, each
      followed by its sleep. */
  ghost predicate RetriedUpTo(provider: nat -> Outcome, from: nat, sleeps: seq<real>) {
    forall k | 0 <= k < |sleeps| ::
      && provider(from + k).Rejected?
      && Retryable(provider(from + k).error, from + k)
      && sleeps[k] == RetryDelayMs(provider(from + k).error)
  }

  /** The attempt that ended the run: its text is returned, or its error
      thrown, and a thrown error is not retryable. */
  ghost predicate EndedBy(provider: nat -> Outcome, run: Run) {
    && run.attempts > 0
    && var last := run.attempts - 1;
       match run.result
       case Success(text) => provider(last) == Generated(text)
       case Failure(error) => provider(last) == Rejected(error) && !Retryable(error, last)
  }

  /** Reference definition of the retry policy, attempt by attempt, from
      attempt `attempt` on. */
  function RunFrom(provider: nat -> Outcome, attempt: nat): (run: Run)
    requires attempt < MaxAttempts
    ensures attempt < run.attempts <= MaxAttempts
    ensures |run.sleeps| == run.attempts - 1 - attempt
    ensures RetriedUpTo(provider, attempt, run.sleeps)
    ensures EndedBy(provider, run)
    decreases MaxAttempts - attempt
  {
    match provider(attempt)
    case Generated(text) => Run(Success(text), attempt + 1, [])
    case Rejected(error) =>
      if Retryable(error, attempt) then
        var rest := RunFrom(provider, attempt + 1);
        Run(rest.result, rest.attempts, [RetryDelayMs(error)] + rest.sleeps)
      else
        Run(Failure(error), attempt + 1, [])
  }

  /** `generateText(options)`: try up to three times, sleeping between
      rate-limited attempts, and return the first text or throw the error of
      the attempt that ended the loop. */
  method GenerateText(options: TextOptions, provider: nat -> Outcome)
    returns (result: Result<string, ProviderError>, sent: seq<GenerationRequest>, sleeps: seq<real>)
    ensures 1 <= |sent| <= MaxAttempts
    ensures forall k | 0 <= k < |sent| :: sent[k] == RequestFor(options)
    ensures |sleeps| == |sent| - 1
    ensures RetriedUpTo(provider, 0, sleeps)
    ensures EndedBy(provider, Run(result, |sent|, sleeps))
    ensures Run(result, |sent|, sleeps) == RunFrom(provider, 0)
  {
    var request := RequestFor(options);
    sent := [];
    sleeps := [];
    var attempt: nat := 0;
    while attempt < MaxAttempts
      invariant attempt < MaxAttempts
      invariant |sent| == attempt && |sleeps| == attempt
      invariant forall k | 0 <= k < |sent| :: sent[k] == request
      invariant RetriedUpTo(provider, 0, sleeps)
      invariant RunFrom(provider, 0) == Run(RunFrom(provider, attempt).result, RunFrom(provider, attempt).attempts, sleeps + RunFrom(provider, attempt).sleeps)
      decreases MaxAttempts - attempt
    {
      sent := sent + [request];
      match provider(attempt)
      case Generated(text) =>
        result := Success(text);
        return;
      case Rejected(error) =>
        if Retryable(error, attempt) {
          sleeps := sleeps + [RetryDelayMs(error)];
          attempt := attempt + 1;
        } else {
          result := Failure(error);
          return;
        }
    }
    // The last attempt is never retried, so the loop only ends by returning:
    // the `throw lastErr` after it cannot be reached.
    assert false;
  }

  /** Rate limited with a delay twice, then answered: the answer is returned
      after exactly two sleeps. */
  lemma SucceedsAfterTwoRetries(provider: nat -> Outcome)
    requires forall k | 0 <= k < 2 :: provider(k).Rejected? && Retryable(provider(k).error, k)
    requires provider(2).Generated?
    ensures RunFrom(provider, 0) ==
      Run(Success(provider(2).text), 3, [RetryDelayMs(provider(0).error), RetryDelayMs(provider(1).error)])
  {
  }

  /** A first failure that is not a rate limit with retry info is thrown at
      once: one attempt, no sleep. */
  lemma TerminalErrorIsNotRetried(provider: nat -> Outcome)
    requires provider(0).Rejected?
    requires provider(0).error.code != RateLimitCode || provider(0).error.retryInfo.None?
    ensures RunFrom(provider, 0) == Run(Failure(provider(0).error), 1, [])
  {
  }

  /** Three rate-limited failures with retry info: the third error is thrown
      after exactly two sleeps. */
  lemma ExhaustionThrowsThirdError(provider: nat -> Outcome)
    requires forall k | 0 <= k < MaxAttempts ::
      provider(k).Rejected? && provider(k).error.code == RateLimitCode && provider(k).error.retryInfo.Some?
    ensures RunFrom(provider, 0) ==
      Run(Failure(provider(2).error), 3, [RetryDelayMs(provider(0).error), RetryDelayMs(provider(1).error)])
  {
  }
}

=== FILE: review_repository.dfy ===
/** `reviewRepository` (packages/server/repositories/review.repository.ts):
    review queries and the per-product summary cache over the database.

    The database is a value: the review table as a sequence and the summary
    table as a map keyed by its unique `productId`. The clock is a parameter. */
module ReviewRepository {
  import opened Wrappers
  import opened JsBuiltins

  type ProductId = int

  datatype Review = Review(id: int, productId: ProductId, content: string, createdAt: Timestamp)

  datatype Summary = Summary(productId: ProductId, content: string, generatedAt: Timestamp, expiryDate: Timestamp)

  /** The two tables the core touches. */
  datatype Database = Database(reviews: seq<Review>, summaries: map<ProductId, Summary>)

  /** `dayjs().add(7, 'day')`, in milliseconds. */
  const SummaryLifetimeDays: int := 7
  const MillisPerDay: int := 24 * 60 * 60 * 1000
  const SummaryLifetimeMs: int := SummaryLifetimeDays * MillisPerDay

  /** The `where: { productId }` filter, keeping the table's order. */
  function ForProduct(reviews: seq<Review>, productId: ProductId): (r: seq<Review>)
    ensures forall i | 0 <= i < |r| :: r[i].productId == productId
  {
    if |reviews| == 0 then []
    else
      var rest := ForProduct(reviews[1..], productId);
      if reviews[0].productId == productId then [reviews[0]] + rest else rest
  }

  /** The filter keeps every copy of every review of the product, and
      nothing else. */
  lemma {:induction false} ForProductCounts(reviews: seq<Review>, productId: ProductId, x: Review)
    ensures multiset(ForProduct(reviews, productId))[x] == if x.productId == productId then multiset(reviews)[x] else 0
    decreases |reviews|
  {
    if |reviews| > 0 {
      ForProductCounts(reviews[1..], productId, x);
      assert reviews == [reviews[0]] + reviews[1..];
    }
  }

  /** `orderBy: { createdAt: 'desc' }`: newest first. */
  ghost predicate NewestFirst(s: seq<Review>) {
    forall i, j | 0 <= i < j < |s| :: s[i].createdAt >= s[j].createdAt
  }

  /** Put `x` into a newest-first list before the first review no newer than it. */
  function InsertNewestFirst(x: Review, s: seq<Review>): (r: seq<Review>)
    requires NewestFirst(s)
    ensures NewestFirst(r)
    ensures multiset(r) == multiset(s) + multiset{x}
    ensures |r| > 0 && (r[0] == x || (|s| > 0 && r[0] == s[0]))
  {
    if |s| == 0 || x.createdAt >= s[0].createdAt then
      [x] + s
    else
      var rest := InsertNewestFirst(x, s[1..]);
      assert s == [s[0]] + s[1..];
      assert s[0].createdAt >= rest[0].createdAt;
      var r := [s[0]] + rest;
      assert forall j | 1 <= j < |r| :: r[j] == rest[j - 1];
      r
  }

  /** The reviews newest first; reviews with equal `createdAt` keep no
      particular order, as the database promises none. */
  function SortNewestFirst(s: seq<Review>): (r: seq<Review>)
    ensures NewestFirst(r)
    ensures multiset(r) == multiset(s)
  {
    if |s| == 0 then []
    else
      assert s == [s[0]] + s[1..];
      InsertNewestFirst(s[0], SortNewestFirst(s[1..]))
  }

  /** `take: limit ? Number(limit) : undefined`: only a non-zero limit caps. */
  predicate Capped(limit: Option<nat>) {
    limit.Some? && limit.value != 0
  }

  /** `take`: the first `limit` elements when the limit is non-zero, else all. */
  function Take(s: seq<Review>, limit: Option<nat>): (r: seq<Review>)
    ensures r <= s
    ensures Capped(limit) ==> |r| == if |s| < limit.value then |s| else limit.value
    ensures !Capped(limit) ==> r == s
  {
    if Capped(limit) && limit.value < |s| then s[..limit.value] else s
  }

  /** A prefix holds no more of any review than the whole list. */
  lemma PrefixWithin(s: seq<Review>, r: seq<Review>)
    requires r <= s
    ensures multiset(r) <= multiset(s)
  {
    assert s == r + s[|r|..];
  }

  /** A prefix of a newest-first list is newest first. */
  lemma PrefixNewestFirst(s: seq<Review>, r: seq<Review>)
    requires r <= s && NewestFirst(s)
    ensures NewestFirst(r)
  {
    assert forall i | 0 <= i < |r| :: r[i] == s[i];
  }

  /** The product's reviews once sorted: as many as the filter kept, all of
      that product. */
  lemma SortedForProduct(reviews: seq<Review>, productId: ProductId)
    ensures |SortNewestFirst(ForProduct(reviews, productId))| == |ForProduct(reviews, productId)|
    ensures forall i | 0 <= i < |SortNewestFirst(ForProduct(reviews, productId))| ::
      SortNewestFirst(ForProduct(reviews, productId))[i].productId == productId
  {
    var all := ForProduct(reviews, productId);
    var sorted := SortNewestFirst(all);
    assert |multiset(sorted)| == |multiset(all)|;
    forall i | 0 <= i < |sorted|
      ensures sorted[i].productId == productId
    {
      assert sorted[i] in multiset(all);
    }
  }

  /** `getReviews(productId, limit)`: the product's reviews, newest first,
      at most `limit` of them when the limit is non-zero. */
  function GetReviews(reviews: seq<Review>, productId: ProductId, limit: Option<nat>): (r: seq<Review>)
    ensures forall i | 0 <= i < |r| :: r[i].productId == productId
    ensures NewestFirst(r)
    ensures multiset(r) <= multiset(ForProduct(reviews, productId))
    ensures Capped(limit) ==> |r| == if |ForProduct(reviews, productId)| < limit.value then |ForProduct(reviews, productId)| else limit.value
    ensures !Capped(limit) ==> multiset(r) == multiset(ForProduct(reviews, productId))
  {
    SortedForProduct(reviews, productId);
    var sorted := SortNewestFirst(ForProduct(reviews, productId));
    var r := Take(sorted, limit);
    PrefixWithin(sorted, r);
    PrefixNewestFirst(sorted, r);
    assert forall i | 0 <= i < |r| :: r[i] == sorted[i];
    r
  }

  /** A capped query keeps the newest: any review of the product it leaves
      out is no newer than every review it returns. */
  lemma GetReviewsKeepsNewest(reviews: seq<Review>, productId: ProductId, limit: Option<nat>, left: Review)
    requires left in ForProduct(reviews, productId)
    requires left !in GetReviews(reviews, productId, limit)
    ensures forall y | y in GetReviews(reviews, productId, limit) :: y.createdAt >= left.createdAt
  {
    var all := ForProduct(reviews, productId);
    var sorted := SortNewestFirst(all);
    var r := GetReviews(reviews, productId, limit);
    assert r == Take(sorted, limit);
    assert left in multiset(sorted) by {
      assert left in multiset(all);
    }
    var j :| 0 <= j < |sorted| && sorted[j] == left;
    assert |r| <= j;
    forall y | y in r
      ensures y.createdAt >= left.createdAt
    {
      var i :| 0 <= i < |r| && r[i] == y;
      assert sorted[i] == y;
    }
  }

  /** Prisma's `upsert` on a unique key: `create` when the key is new,
      `update` when it is stored. */
  function Upsert(m: map<ProductId, Summary>, key: ProductId, create: Summary, update: Summary): (r: map<ProductId, Summary>)
    ensures r.Keys == m.Keys + {key}
    ensures r[key] == if key in m then update else create
    ensures forall other | other in m && other != key :: r[other] == m[other]
  {
    if key in m then m[key := update] else m[key := create]
  }

  /** `storeReviewSummary(productId, summary)`: upsert the product's summary,
      generated `now` and expiring seven days later; the create and update
      payloads are the same record. */
  function StoreReviewSummary(summaries: map<ProductId, Summary>, productId: ProductId, content: string, now: Timestamp): (r: map<ProductId, Summary>)
    ensures r.Keys == summaries.Keys + {productId}
    ensures r[productId].productId == productId && r[productId].content == content
    ensures r[productId].generatedAt == now
    ensures r[productId].generatedAt < r[productId].expiryDate
    ensures r[productId].expiryDate - r[productId].generatedAt == 7 * 86_400_000
    ensures forall other | other in summaries && other != productId :: r[other] == summaries[other]
  {
    var data := Summary(productId, content, now, now + SummaryLifetimeMs);
    Upsert(summaries, productId, data, data)
  }

  /** Last write wins: the stored record depends only on the last call's
      arguments, not on whether or what a record existed before. */
  lemma StoreIsUpsert(before: map<ProductId, Summary>, other: map<ProductId, Summary>, productId: ProductId, content: string, now: Timestamp)
    ensures StoreReviewSummary(before, productId, content, now)[productId]
         == StoreReviewSummary(other, productId, content, now)[productId]
  {
  }

  /** Two stores for one product leave exactly the second record. */
  lemma StoreTwiceKeepsSecond(summaries: map<ProductId, Summary>, productId: ProductId, first: string, firstAt: Timestamp, second: string, secondAt: Timestamp)
    ensures StoreReviewSummary(StoreReviewSummary(summaries, productId, first, firstAt), productId, second, secondAt)
         == StoreReviewSummary(summaries, productId, second, secondAt)
  {
  }

  /** `getReviewSummary(productId)`: the product's record, or `null`. */
  function GetReviewSummary(summaries: map<ProductId, Summary>, productId: ProductId): (r: Option<Summary>)
    ensures r.Some? <==> productId in summaries
    ensures r.Some? ==> r.value == summaries[productId]
  {
    if productId in summaries then Some(summaries[productId]) else None
  }
}

=== FILE: review_service.dfy ===
/** `reviewService.summarizeReviews` (packages/server/services/review.service.ts):
    answer from the summary cache, or summarize the newest reviews and cache
    the result.

    The summarizer (`llmClient.summarizeReviews`) is a function from its input
    text to the text it resolves to or the error it throws. */
module ReviewService {
  import opened Wrappers
  import opened JsBuiltins
  import opened ReviewRepository

  /** At most this many reviews are summarized. */
  const ReviewsPerSummary: nat := 10
  const ReviewSeparator: string := "\n\n"
  const NoSummaryAvailable: string := "No summary available"

  /** What `summarizeReviews` resolves to. On a cache hit the source returns
      the stored record itself, not its content, so both shapes exist. */
  datatype SummaryReply = StoredRecord(record: Summary) | FreshSummary(text: string)

  /** The review contents, in the given order. */
  function Contents(reviews: seq<Review>): (r: seq<string>)
    ensures |r| == |reviews|
    ensures forall i | 0 <= i < |r| :: r[i] == reviews[i].content
  {
    if |reviews| == 0 then [] else [reviews[0].content] + Contents(reviews[1..])
  }

  /** The reviews a cache miss summarizes: `getReviews(productId, 10)`. */
  function ReviewsToSummarize(reviews: seq<Review>, productId: ProductId): (r: seq<Review>)
    ensures |r| <= ReviewsPerSummary
    ensures |r| == if |ForProduct(reviews, productId)| < ReviewsPerSummary then |ForProduct(reviews, productId)| else ReviewsPerSummary
    ensures multiset(r) <= multiset(ForProduct(reviews, productId))
    ensures forall i | 0 <= i < |r| :: r[i].productId == productId
    ensures NewestFirst(r)
  {
    GetReviews(reviews, productId, Some(ReviewsPerSummary))
  }

  /** The summarizer's input: the contents joined by blank lines. */
  function SummaryInput(reviews: seq<Review>): (text: string)
    ensures |reviews| == 0 ==> text == ""
    ensures |reviews| == 1 ==> text == reviews[0].content
    ensures |reviews| > 0 ==> reviews[0].content <= text
  {
    Join(Contents(reviews), ReviewSeparator)
  }

  /** Each further review adds a blank line and its content at the end, so
      the summarizer reads the reviews in the repository's order. */
  lemma {:induction false} SummaryInputInOrder(reviews: seq<Review>, next: Review)
    requires |reviews| > 0
    ensures SummaryInput(reviews + [next]) == SummaryInput(reviews) + ReviewSeparator + next.content
  {
    assert Contents(reviews + [next]) == Contents(reviews) + [next.content];
    JoinSnoc(Contents(reviews), next.content, ReviewSeparator);
  }

  /** `summary || 'No summary available'`: an empty text is replaced. */
  function OrFallback(summary: string): (r: string)
    ensures r != ""
    ensures summary != "" ==> r == summary
    ensures summary == "" ==> r == NoSummaryAvailable
  {
    if summary == "" then NoSummaryAvailable else summary
  }

  /** `summarizeReviews(productId)` at time `now`. */
  function SummarizeReviews(db: Database, productId: ProductId, now: Timestamp, summarize: string -> Result<string, Error>): (out: (Database, Result<SummaryReply, Error>))
    // A hit returns the stored record whatever its expiry, stores nothing
    // and never consults the summarizer.
    ensures productId in db.summaries ==>
      out == (db, Success(StoredRecord(db.summaries[productId])))
    // A miss asks the summarizer about the product's newest reviews; its
    // error propagates and nothing is stored.
    ensures productId !in db.summaries ==> out.0.reviews == db.reviews
    ensures productId !in db.summaries && summarize(SummaryInput(ReviewsToSummarize(db.reviews, productId))).Failure? ==>
      out == (db, Failure(summarize(SummaryInput(ReviewsToSummarize(db.reviews, productId))).error))
    // Its answer, after the fallback, is returned and stored as the
    // product's record, generated `now` and expiring seven days later.
    ensures productId !in db.summaries && summarize(SummaryInput(ReviewsToSummarize(db.reviews, productId))).Success? ==>
      var summary := OrFallback(summarize(SummaryInput(ReviewsToSummarize(db.reviews, productId))).value);
      && out.1 == Success(FreshSummary(summary))
      && out.0.summaries.Keys == db.summaries.Keys + {productId}
      && out.0.summaries[productId] == Summary(productId, summary, now, now + SummaryLifetimeMs)
    ensures forall other | other in db.summaries && other != productId :: out.0.summaries[other] == db.summaries[other]
  {
    match GetReviewSummary(db.summaries, productId)
    case Some(existing) => (db, Success(StoredRecord(existing)))
    case None =>
      var input := SummaryInput(ReviewsToSummarize(db.reviews, productId));
      match summarize(input)
      case Failure(error) => (db, Failure(error))
      case Success(text) =>
        var summary := OrFallback(text);
        (db.(summaries := StoreReviewSummary(db.summaries, productId, summary, now)), Success(FreshSummary(summary)))
  }

  /** After a miss that stored a summary, the next call hits the cache and
      answers with the record holding that same text, whatever the summarizer
      would say. */
  lemma SecondCallHits(
    db: Database, productId: ProductId, now: Timestamp, later: Timestamp,
    summarize: string -> Result<string, Error>, again: string -> Result<string, Error>)
    requires productId !in db.summaries
    requires SummarizeReviews(db, productId, now, summarize).1.Success?
    ensures
      var (cached, first) := SummarizeReviews(db, productId, now, summarize);
      var (after, second) := SummarizeReviews(cached, productId, later, again);
      && after == cached
      && second.Success? && second.value.StoredRecord?
      && second.value.record.content == first.value.text
  {
  }

  /** A hit is served even when the stored summary has expired. */
  lemma ExpiredSummaryIsServed(db: Database, productId: ProductId, now: Timestamp, summarize: string -> Result<string, Error>)
    requires productId in db.summaries && db.summaries[productId].expiryDate <= now
    ensures SummarizeReviews(db, productId, now, summarize).1 == Success(StoredRecord(db.summaries[productId]))
  {
  }

  /** The answer on a hit is the record, not a string: a caller expecting
      the summary text gets an object holding it. */
  lemma HitAnswersWithRecord(db: Database, productId: ProductId, now: Timestamp, summarize: string -> Result<string, Error>)
    requires productId in db.summaries
    ensures SummarizeReviews(db, productId, now, summarize).1.Success?
    ensures !SummarizeReviews(db, productId, now, summarize).1.value.FreshSummary?
  {
  }

  /** `summarizeReviews` as its declared `Promise<string>` intends: the
      summary text on a hit as on a miss, with the same effect on the store. */
  function SummarizeReviewsText(db: Database, productId: ProductId, now: Timestamp, summarize: string -> Result<string, Error>): (out: (Database, Result<string, Error>))
    ensures out.0 == SummarizeReviews(db, productId, now, summarize).0
    ensures out.1.Success? ==> productId in out.0.summaries && out.1.value == out.0.summaries[productId].content
    ensures out.1.Failure? ==> out.0 == db && productId !in db.summaries
  {
    var (after, reply) := SummarizeReviews(db, productId, now, summarize);
    match reply
    case Failure(error) => (after, Failure(error))
    case Success(StoredRecord(record)) => (after, Success(record.content))
    case Success(FreshSummary(text)) => (after, Success(text))
  }
}

=== FILE: wrappers.dfy ===
/** Optional values and results with an error, standing in for the source's
    `undefined`/`null` returns and thrown exceptions. */
module Wrappers {

  /** A value that may be absent: `undefined` or `null` in the source. */
  datatype Option<+T> = None | Some(value: T) {

    /** The value, or `default` when absent: the source's `x ?? default`
        and default parameter values. */
    function GetOr(default: T): T {
      match this
      case Some(v) => v
      case None => default
    }
  }

  /** The outcome of a call that may throw: either a value or the error thrown. */
  datatype Result<+T, +E> = Success(value: T) | Failure(error: E)
}
